=== FILE: README.md ===
# Torchelie core, modelled in Dafny

This project models three small pieces of the Torchelie deep-learning toolkit.

- **`ResNetBone`** parses a list of `"channels:stride"` strings and chains them into layers. As written it never returns: its stem call passes a `stride` keyword that `Conv2dBNReLU` does not accept, so it raises `TypeError` (see "## Findings"). The model states that, and models the corrected version beside it. The corrected version builds one strided stem convolution block and then one residual block per remaining entry, each layer taking the channel count the previous layer produces. **`ResNetDebug`** is a fixed configuration built on the corrected version.
- **The conv/norm/activation blocks** (`Conv2dNormReLU`, `Conv2dBNReLU`, `Conv2dCondBNReLU`) are modelled as layer descriptors. A block's leak picks its activation and sets the Kaiming initialisation of its convolution.
- **`TrainAndTest`** wires a training loop and a test loop to their callbacks. Its `eval_call` wrapper switches the model between train and eval mode around every test batch, and `add_callbacks`, `add_test_callbacks` and `fit` delegate to the loops.

Layers, loops and callbacks are immutable descriptor values, and every operation is a pure function. Python exceptions are `Err` values: those the modelled code raises itself are `Outcomes.PyError`, whose constructors each name the Python class they stand for (`IndexError`, `ValueError` or `TypeError`), and whatever `test_fun` raises is a type parameter. Tensor maths, the `Conv2d`/`ResBlock`/`ConditionalBN2d` internals and what a loop does when it runs are opaque tags or function parameters.

Files:

- `outcomes.dfy`: `Option`, `Result` and the Python exceptions.
- `pystr.dfy`: `str.split` and `int()` on decimal digit strings, with their round trips.
- `blocks.dfy`: `torchelie/nn/blocks.py`.
- `resnet.dfy`: `torchelie/models/resnet.py`.
- `trainandtest.dfy`: `torchelie/recipes/trainandtest.py`.

`eval_call` has no `try`/`finally`, so when `test_fun` raises the model stays in eval mode; the `torch.no_grad()` block still restores the gradient switch. `TrainAndTest.EvalCall` and `TrainAndTest.EvalCallErrorLeavesEvalMode` state this.

## Model

| member | source | states |
|---|---|---|
| PyStr.Split | torchelie/models/resnet.py:8 | `l.split(':')` never returns an empty list, and none of its fields contains the separator |
| PyStr.JoinSplit | torchelie/models/resnet.py:8 | joining the fields of a split with the separator gives back the original string |
| PyStr.SplitJoin | torchelie/models/resnet.py:8 | splitting a join of at least one separator-free field gives back exactly those fields (inverse of `JoinSplit`) |
| PyStr.SplitCount | torchelie/models/resnet.py:8 | a split has one more field than the string has separators |
| PyStr.ParseInt | torchelie/models/resnet.py:8 | `int(x)` succeeds exactly on non-empty strings of decimal digits |
| PyStr.LeadingZero | torchelie/models/resnet.py:8 | `int('0' + s) == int(s)` for every non-empty digit string: leading zeros are accepted and ignored |
| PyStr.ParseDecimal | torchelie/models/resnet.py:8 | `int(str(n)) == n` for every natural number |
| ResNet.ParseFields | torchelie/models/resnet.py:8 | the list comprehension succeeds iff every field is an integer literal, giving one value per field in order; otherwise it raises `ValueError` on the first field that is not one |
| ResNet.ParseEntry | torchelie/models/resnet.py:7-10 | an entry parses iff it splits into exactly two integer fields, and the pair is (channels, stride) read from those fields; otherwise the first non-integer field raises `ValueError`, and if every field is an integer the unpacking raises `ValueError` (`UnpackError(2, number of fields)`) |
| ResNet.ParseFormatEntry | torchelie/models/resnet.py:7-10 | parsing the text `"<ch>:<stride>"` gives back `(ch, stride)` |
| ResNet.EntryShape | torchelie/models/resnet.py:7-10 | every entry that parses is two decimal literals around a single `':'` |
| ResNet.ResBlocks | torchelie/models/resnet.py:14-17 | the loop yields one `ResBlock` per entry; each block's input channels are the previous output; its channels and stride are its entry's; the first bad entry's error propagates |
| ResNet.ResNetBone | torchelie/models/resnet.py:6-18 | an empty `arch` raises `IndexError`; otherwise it succeeds iff every entry parses; the result has `len(arch)` layers, a kernel-3 stem from `in_ch`, then chained `ResBlock`s carrying each entry's values in arch order |
| ResNet.StemExpansion | torchelie/models/resnet.py:10-14 | expanded into layers, the stem is a kernel-3 conv with `arch[0]`'s stride, a batch norm and a plain `ReLU`, carrying `in_ch` channels to the input channels of the first `ResBlock` |
| ResNet.BuildResNetBone | torchelie/models/resnet.py:6-18 | the imperative loop that threads `in_ch` through a variable builds exactly the layers (or error) `ResNetBone` specifies |
| ResNet.ResNetBoneAsWritten | torchelie/models/resnet.py:10-13 | as written, an empty `arch` raises `IndexError` and an unparsable first entry raises its own error; once `arch[0]` parses, the stem call raises `TypeError` for the unexpected keyword `stride` |
| ResNet.AsWrittenNeverBuilds | torchelie/models/resnet.py:10-13 | the as-written `ResNetBone` fails on every input, including every architecture the corrected one accepts |
| ResNet.DebugArchParses | torchelie/models/resnet.py:23 | every entry of the debug architecture parses; the first is (64, 2) and the last (256, 1) |
| ResNet.ResNetDebug | torchelie/models/resnet.py:20-26 | with the corrected stem (see "## Findings"; as written it raises `TypeError`), the debug classifier builds: 7 chained backbone layers from 1 input channel, a kernel-3 stem then `ResBlock`s, carrying (64, 2), (64, 1), (64, 1), (128, 2), (128, 1), (256, 2), (256, 1) in order; its head reads the final 256 channels into 10 classes |
| ResNet.ResNetDebugIgnoresInCh | torchelie/models/resnet.py:20-24 | `ResNetDebug(in_ch)` is the same for every `in_ch` |
| Blocks.ActivationFor | torchelie/nn/blocks.py:14-17 | the activation is `ReLU` exactly when the leak is 0; either way its negative slope equals the leak |
| Blocks.ActivationMeaning | torchelie/nn/blocks.py:14-17 | pointwise, the chosen activation is the leaky rectifier with slope `leak` (choosing `ReLU` at 0 changes nothing) |
| Blocks.Conv2dNormReLU | torchelie/nn/blocks.py:8-22 | three layers in order: conv(in_ch to out_ch, ks), the caller's norm, the activation for `leak`; the conv's Kaiming `a` is the activation's negative slope and its bias 0; channels flow through iff the norm accepts `out_ch` |
| Blocks.Conv2dBNReLU | torchelie/nn/blocks.py:25-26 | a stride-1 conv from `in_ch` to `out_ch`, then a batch norm sized to the conv's output; `leak` reaches both the activation and the Kaiming init; the stack always carries `in_ch` to `out_ch` channels |
| Blocks.CallConv2dBNReLU | torchelie/nn/blocks.py:25-26 | a call with three positional arguments succeeds iff its keywords are at most one `leak`, whose value becomes the block's leak (0 without it); a name the call site assembles twice raises `TypeError` first, at its first repeat; otherwise the first keyword other than `leak` raises `TypeError`, "multiple values" for `in_ch`, `out_ch` or `ks` and "unexpected keyword" for any other name |
| Blocks.KeywordBindingOrder | torchelie/nn/blocks.py:25 | `ks=1` gets the "multiple values" error, and `stride=2, leak=0.1, leak=0.2` gets the repeated-`leak` error, not the unexpected `stride` |
| Blocks.Conv2dBNReLUStrided | torchelie/nn/blocks.py:19-26 | the strided block a strided stem needs: a conv from `in_ch` to `out_ch` with kernel `ks`, the given stride and the Kaiming init `a = leak` with zero bias; a batch norm on `out_ch`; the activation for `leak`; channels carried from `in_ch` to `out_ch` |
| Blocks.StridedUnitStride | torchelie/nn/blocks.py:25-26 | with stride 1 the strided block is exactly `Conv2dBNReLU` |
| Blocks.NewCondBNReLU | torchelie/nn/blocks.py:30-34 | the conv maps `in_ch` to `out_ch` with kernel `ks` and keeps its constructor's init (no Kaiming); the conditional BN is sized to the conv's output with `cond_ch` |
| Blocks.Condition | torchelie/nn/blocks.py:36-37 | `condition(z)` only updates the conditional BN's state through its own `condition`; conv, leak and BN sizes are unchanged |
| Blocks.Forward | torchelie/nn/blocks.py:39-46 | `forward` applies conv, then conditional BN with `z`, then the same activation `Conv2dNormReLU` picks for that leak |
| Blocks.CondBlockActivationAgrees | torchelie/nn/blocks.py:42-45 | the `leak == 0` test in `forward` and the `leak != 0` test in `Conv2dNormReLU` select the same activation |
| TrainAndTest.EvalCall | torchelie/recipes/trainandtest.py:45-50 | `test_fun` runs in eval mode with gradients off and its outcome is returned unchanged; the gradient switch is restored; on return the model ends in train mode, on an exception in eval mode |
| TrainAndTest.EvalCallForgetsPriorMode | torchelie/recipes/trainandtest.py:45-50 | the outcome does not depend on the prior mode, so a model that was in eval mode comes back in train mode |
| TrainAndTest.EvalCallErrorLeavesEvalMode | torchelie/recipes/trainandtest.py:45-50 | a model in train mode whose `test_fun` raises is left in eval mode, and the exception propagates |
| TrainAndTest.CheckpointPath | torchelie/recipes/trainandtest.py:66 | the path is always a `/ckpt` file in a non-empty directory: the environment name when it is truthy, `model` otherwise |
| TrainAndTest.CheckpointDirOfPath | torchelie/recipes/trainandtest.py:66 | stripping `/ckpt` from the path recovers the chosen directory |
| TrainAndTest.CheckpointPathCollisions | torchelie/recipes/trainandtest.py:66 | distinct truthy environments get distinct paths; `None`, `''` and `'model'` all map to `model/ckpt` |
| TrainAndTest.New | torchelie/recipes/trainandtest.py:34-70 | the wiring is well formed; train prologues are `[Counter]`; train epilogues are `CallDataLoop(test loop, model, test_every)`, `VisdomLogger(visdom_env, log_every)`, `StdoutLogger(log_every)` in that order; test epilogues are `VisdomLogger(-1, 'test_')`, `StdoutLogger(-1, 'Test')`, `Checkpoint(path, train loop)` in that order |
| TrainAndTest.NewWiring | torchelie/recipes/trainandtest.py:55-67 | searching the wiring finds the test period `test_every` only in the training loop and the checkpoint path only in the test loop; every Visdom logger uses `visdom_env`; the training loggers log every `log_every` |
| TrainAndTest.NewWithDefaults | torchelie/recipes/trainandtest.py:34-43 | with default arguments, the recipe is wired around the caller's model, step functions and loaders; it tests every 100 iterations, every Visdom logger of both loops uses the environment `main`, the checkpoint goes to `main/ckpt`, the training loggers log every 10, and both loops run on `cpu` |
| TrainAndTest.AddCallbacks | torchelie/recipes/trainandtest.py:72-73 | only the training loop receives the callbacks, appended in order; the test loop is unchanged and the wiring stays well formed |
| TrainAndTest.AddTestCallbacks | torchelie/recipes/trainandtest.py:75-76 | only the test loop receives the callbacks, appended in order; the training loop is unchanged and the wiring stays well formed |
| TrainAndTest.AddCallbacksAlgebra | torchelie/recipes/trainandtest.py:72-76 | adding training and test callbacks commute, and adding twice equals adding the concatenation once |
| TrainAndTest.Fit | torchelie/recipes/trainandtest.py:78-88 | `fit(iters)` runs the training loop, not the test loop, for `iters`; the run sees other loops only through the loop references of the callbacks, resolved to this recipe's loops |
| TrainAndTest.FitReachesTestLoop | torchelie/recipes/trainandtest.py:52-70 | in any well-formed recipe, the loop `fit` runs steps with the training function; each of its test triggers resolves to the test loop, which evaluates through `eval_call`; each test checkpoint resolves back to the loop `fit` runs |
| TrainAndTest.FitTriggersTestLoop | torchelie/recipes/trainandtest.py:52-88 | on a `TrainAndTest` recipe after `add_callbacks(cbs)` and `add_test_callbacks(tcbs)`, `fit` runs the training loop holding `cbs`; its `test_every` trigger reaches exactly the test loop running `eval_call` with `tcbs`; the checkpoint saves the training loop |
| TrainAndTest.AddUserCallback | torchelie/recipes/trainandtest.py:72-73 | a caller's own callback is appended last to the training loop; the wiring stays well formed and the test trigger still resolves to the same test loop |

## Findings

| source | as written | input that shows it | evidently intended | confidence | as-written member | corrected member |
|---|---|---|---|---|---|---|
| torchelie/models/resnet.py:12 | the stem is built as `Conv2dBNReLU(in_ch, ch, 3, stride=s)`, but `Conv2dBNReLU` (torchelie/nn/blocks.py:25) takes no `stride` parameter, so the call raises `TypeError` | any `arch` whose first entry parses, e.g. the `ResNetDebug` architecture `['64:2', ...]` | a conv-BN-ReLU stem with the entry's stride | not executed; high, assuming `tnn.Conv2dBNReLU` is the function in blocks.py | ResNet.ResNetBoneAsWritten, ResNet.AsWrittenNeverBuilds | ResNet.ResNetBone, Blocks.Conv2dBNReLUStrided, ResNet.StemExpansion |

`ResNet.ResNetDebug` and `ResNet.BuildResNetBone` use the corrected `ResNet.ResNetBone`.

## Left out

- PyStr.ParseInt: accepts only plain ASCII decimal digit strings. Python's `int` also accepts surrounding whitespace, a sign, underscores between digits and non-ASCII digits. The model rejects all of these, so it is stricter than the source.
- Blocks.Forward: the tensor operations (convolution, conditional batch norm, activation) are function parameters. Their numerics are torch calls outside the model.
- Blocks.Condition: what `ConditionalBN2d.condition` stores is a parameter. `torchelie/nn/batchnorm.py` is not part of this model.
- Blocks.Conv2dNormReLU: the convolution is recorded with stride 1, the usual default of a convolution. `torchelie/nn/layers.py`, which defines `Conv2d`, is not part of this model, and `Default` stands for whatever initialisation its constructor performs.
- TrainAndTest.EvalCall: `test_fun` is modelled as a function of the mode it observes and the batch. It cannot itself switch the model's mode or the gradient switch.
- TrainAndTest.New: the exact callback lists assume two things about `torchelie/recipes/recipebase.py`, which is not part of this model: a new `DataModelLoop` or `DataLoop` starts with no callbacks, and `add_prologues`/`add_epilogues` append in order.
- TrainAndTest.AddCallbacks: a loop's `add_callbacks` is defined in `torchelie/recipes/recipebase.py`, which is not part of this model. Added callbacks are kept as an ordered list, and how a loop sorts them into prologues and epilogues is not modelled. `WellFormed` does not inspect them.
- TrainAndTest.AddTestCallbacks: same as `AddCallbacks`, for the test loop. The added callbacks are kept as an ordered list and not inspected.
- TrainAndTest.Fit: what `run(iters)` does is a parameter: iteration counting, epoch wrap-around, test triggering every `test_every` iterations, metric averaging, logging and checkpoint writing. The loop and callback implementations (`recipebase.py`, `metrics/callbacks.py`) are not part of this model.
- ResNet.ResNetBone: Python's default `in_ch=3` is not modelled as a separate entry point; callers pass `in_ch` explicitly.
- Blocks.Conv2dNormReLU: the defaults `leak=0` of `Conv2dNormReLU`, `Conv2dBNReLU` and `Conv2dCondBNReLU` are not modelled as separate entry points; callers pass the leak explicitly. `Blocks.CallConv2dBNReLU` does apply the default when `leak` is not given.
- Blocks.CallConv2dBNReLU: keyword values are modelled as reals, the type of `leak`; the value a misplaced keyword such as `ks=1` carries plays no part in its error. Positional-argument counts other than three are not modelled.
- Blocks.Forward: the default `z=None` is not a separate entry point; callers pass `None` explicitly.
- Blocks.ActivationFor: `leak` is a Python float, modelled as a real. NaN, infinities and the sign of `-0.0` are not modelled, so for example the `leak != 0` test cannot see a NaN leak.
- The classification recipe (`torchelie/recipes/classification.py`) is left out. Its step functions are autograd calls. As written, its constructor passes keyword arguments that `TrainAndTest` does not accept, and it calls a `__call__` that `TrainAndTest` does not define, so it has no coherent behaviour to state.
- Feature visualisation (`torchelie/feature_vis.py`) and pixel normalisation (`torchelie/nn/pixelnorm.py`) are left out: both are floating-point tensor numerics.
- `ResBlock`, `Classifier`, `BatchNorm2d` and Kaiming initialisation are opaque tags, and `ConditionalBN2d` is `Blocks.CondBN` with an opaque state. Their internals are outside the model.

=== FILE: blocks.dfy ===
/** Convolution + normalisation + activation blocks, as layer descriptors.
    The layers themselves (`Conv2d`, `BatchNorm2d`, the activations) are
    opaque tags: only their configuration and order are modelled, plus the
    pointwise meaning of the two activations. The conditional batch norm of
    `Conv2dCondBNReLU` carries state and is `CondBN` below. */
module Blocks {
  import opened Outcomes

  /** How a convolution's parameters stand after the block built it.
      `Default` is whatever the `Conv2d` constructor itself does. */
  datatype ConvInit = Default | KaimingNormal(a: real, bias: real)

  datatype Activation = ReLU | LeakyReLU(slope: real)

  datatype Layer =
    | Conv2d(inCh: int, outCh: int, ks: int, stride: int, init: ConvInit)
    | BatchNorm2d(ch: int)
    | Act(act: Activation)

  /** The slope an activation applies to negative inputs. */
  function NegativeSlope(a: Activation): real
  {
    match a
    case ReLU => 0.0
    case LeakyReLU(s) => s
  }

  /** The pointwise meaning of an activation module. */
  function Apply(a: Activation, x: real): real
  {
    match a
    case ReLU => if x >= 0.0 then x else 0.0
    case LeakyReLU(s) => if x >= 0.0 then x else s * x
  }

  /** Reference definition: the leaky rectifier with a given negative slope. */
  function LeakyRectifier(slope: real, x: real): real
  {
    if x < 0.0 then slope * x else x
  }

  /** The activation a block with leak `leak` ends with: a plain `ReLU` when
      the leak is zero, `LeakyReLU(leak)` otherwise. Either way its negative
      slope is the leak. */
  function ActivationFor(leak: real): (a: Activation)
    ensures a.ReLU? <==> leak == 0.0
    ensures NegativeSlope(a) == leak
  {
    if leak != 0.0 then LeakyReLU(leak) else ReLU
  }

  /** Choosing `ReLU` for a zero leak does not change the block's meaning:
      the activation always computes the leaky rectifier with slope `leak`. */
  lemma ActivationMeaning(leak: real, x: real)
    ensures Apply(ActivationFor(leak), x) == LeakyRectifier(leak, x)
  {
  }

  /** The channel count leaving `l` when `ch` channels enter it, or `None`
      when `l` expects a different channel count. */
  function Through(l: Layer, ch: int): Option<int>
  {
    match l
    case Conv2d(i, o, _, _, _) => if ch == i then Some(o) else None
    case BatchNorm2d(c) => if ch == c then Some(ch) else None
    case Act(_) => Some(ch)
  }

  /** The channel count leaving a sequential stack of layers. */
  function Flow(layers: seq<Layer>, ch: int): Option<int>
  {
    if |layers| == 0 then Some(ch)
    else
      match Through(layers[0], ch)
      case None => None
      case Some(c) => Flow(layers[1..], c)
  }

  /** `Conv2dNormReLU(in_ch, out_ch, ks, norm, leak)`: a convolution, the
      caller's normalisation layer and the activation for `leak`, in this
      order. The convolution is Kaiming-initialised for the slope of the
      activation that follows it, with a zero bias. */
  function Conv2dNormReLU(inCh: int, outCh: int, ks: int, norm: Layer, leak: real): (r: seq<Layer>)
    ensures |r| == 3
    ensures r[0].Conv2d? && r[0].inCh == inCh && r[0].outCh == outCh && r[0].ks == ks && r[0].stride == 1
    ensures r[1] == norm
    ensures r[2].Act? && NegativeSlope(r[2].act) == leak && (r[2].act.ReLU? <==> leak == 0.0)
    ensures r[0].init == KaimingNormal(NegativeSlope(r[2].act), 0.0)
    ensures Flow(r, inCh) == Through(norm, outCh)
  {
    var r := [Conv2d(inCh, outCh, ks, 1, KaimingNormal(leak, 0.0)), norm, Act(ActivationFor(leak))];
    assert r[1..] == [norm, r[2]] && r[1..][1..] == [r[2]];
    assert Flow(r, inCh) == Flow(r[1..], outCh);
    assert match Through(norm, outCh)
      case None => true
      case Some(c) => Flow(r[1..][1..], c) == Some(c);
    r
  }

  /** `Conv2dBNReLU(in_ch, out_ch, ks, leak)`: the block above with a batch
      norm sized to the convolution's output, so the stack is always
      channel-consistent from `in_ch` to `out_ch`. */
  function Conv2dBNReLU(inCh: int, outCh: int, ks: int, leak: real): (r: seq<Layer>)
    ensures |r| == 3 && r[0].Conv2d? && r[0].inCh == inCh && r[0].outCh == outCh && r[0].ks == ks
    ensures r[0].stride == 1
    ensures r[1] == BatchNorm2d(r[0].outCh)
    ensures r[2] == Act(ActivationFor(leak)) && r[0].init == KaimingNormal(leak, 0.0)
    ensures Flow(r, inCh) == Some(outCh)
  {
    Conv2dNormReLU(inCh, outCh, ks, BatchNorm2d(outCh), leak)
  }

  /** The parameters of `Conv2dBNReLU` that its three positional arguments
      fill. */
  predicate Positional(name: string)
  {
    name == "in_ch" || name == "out_ch" || name == "ks"
  }

  /** Keyword `i` repeats the name of an earlier keyword of the call. */
  predicate Repeats(kwargs: seq<(string, real)>, i: int)
    requires 0 <= i < |kwargs|
  {
    exists j :: 0 <= j < i && kwargs[j].0 == kwargs[i].0
  }

  /** Keyword `i` is the first one that repeats an earlier name. */
  predicate FirstRepeat(kwargs: seq<(string, real)>, i: int)
  {
    && 0 <= i < |kwargs|
    && Repeats(kwargs, i)
    && forall j :: 0 <= j < i ==> !Repeats(kwargs, j)
  }

  /** The first keyword at or after `i` that repeats an earlier name, when
      none before `i` does. */
  function FindRepeat(kwargs: seq<(string, real)>, i: nat): (r: Option<nat>)
    requires i <= |kwargs|
    requires forall j :: 0 <= j < i ==> !Repeats(kwargs, j)
    ensures r.None? <==> forall j :: 0 <= j < |kwargs| ==> !Repeats(kwargs, j)
    ensures r.Some? ==> FirstRepeat(kwargs, r.value)
    decreases |kwargs| - i
  {
    if i == |kwargs| then None
    else if Repeats(kwargs, i) then Some(i)
    else FindRepeat(kwargs, i + 1)
  }

  /** The `TypeError` binding raises for a keyword that is not `leak`: a
      positional parameter is filled twice, any other name is undeclared. */
  function BindError(name: string): PyError
  {
    if Positional(name) then MultipleValues(name) else UnexpectedKeyword(name)
  }

  /** Keyword `i` is the first that binding cannot place: it is not `leak`,
      and every keyword before it is. */
  predicate FirstUnbound(kwargs: seq<(string, real)>, i: int)
  {
    && 0 <= i < |kwargs|
    && kwargs[i].0 != "leak"
    && forall j :: 0 <= j < i ==> kwargs[j].0 == "leak"
  }

  /** Python's handling of a call `Conv2dBNReLU(in_ch, out_ch, ks, **kw...)`
      with three positional arguments, where `kwargs` is the keyword list the
      call site assembles from its `**` unpackings. Assembling raises
      `TypeError` at the first name given twice. Binding then accepts only
      `leak`; the first other keyword raises `TypeError`, as a second value
      for a positional parameter or as an undeclared name. A bound `leak=v` is
      the block's leak; without it the leak is its default 0. */
  function CallConv2dBNReLU(inCh: int, outCh: int, ks: int, kwargs: seq<(string, real)>): (r: Result<seq<Layer>, PyError>)
    ensures r.Ok? <==> forall i :: 0 <= i < |kwargs| ==> kwargs[i].0 == "leak" && !Repeats(kwargs, i)
    ensures r.Ok? ==> |kwargs| <= 1
    ensures forall i :: FirstRepeat(kwargs, i) ==> r == Err(RepeatedKeyword(kwargs[i].0))
    ensures (forall i :: 0 <= i < |kwargs| ==> !Repeats(kwargs, i)) ==>
      forall i :: FirstUnbound(kwargs, i) ==> r == Err(BindError(kwargs[i].0))
    ensures r.Ok? ==> Flow(r.value, inCh) == Some(outCh)
    ensures r.Ok? && |kwargs| == 0 ==> r.value == Conv2dBNReLU(inCh, outCh, ks, 0.0)
    ensures r.Ok? && |kwargs| == 1 ==> r.value == Conv2dBNReLU(inCh, outCh, ks, kwargs[0].1)
  {
    match FindRepeat(kwargs, 0)
    case Some(i) => Err(RepeatedKeyword(kwargs[i].0))
    case None =>
      if |kwargs| == 0 then Ok(Conv2dBNReLU(inCh, outCh, ks, 0.0))
      else if kwargs[0].0 != "leak" then Err(BindError(kwargs[0].0))
      else if |kwargs| == 1 then Ok(Conv2dBNReLU(inCh, outCh, ks, kwargs[0].1))
      else
        assert !Repeats(kwargs, 1);
        Err(BindError(kwargs[1].0))
  }

  /** Two calls that show the order of the checks: a keyword naming a
      positional parameter gets the second value error, and a repeated
      `leak` is caught while the call site assembles its keywords, before
      binding reaches the undeclared `stride` in front of it. */
  lemma KeywordBindingOrder()
    ensures CallConv2dBNReLU(1, 2, 3, [("ks", 1.0)]) == Err(MultipleValues("ks"))
    ensures CallConv2dBNReLU(1, 2, 3, [("stride", 2.0), ("leak", 0.1), ("leak", 0.2)]) == Err(RepeatedKeyword("leak"))
  {
  }

  /** The strided variant of `Conv2dBNReLU` that a strided stem needs: the
      same block with the convolution's stride set. */
  function Conv2dBNReLUStrided(inCh: int, outCh: int, ks: int, stride: int, leak: real): (r: seq<Layer>)
    ensures |r| == 3 && r[0].Conv2d? && r[0].inCh == inCh && r[0].outCh == outCh && r[0].ks == ks
    ensures r[0].stride == stride && r[0].init == KaimingNormal(leak, 0.0)
    ensures r[1] == BatchNorm2d(outCh) && r[2] == Act(ActivationFor(leak))
    ensures Flow(r, inCh) == Some(outCh)
  {
    var b := Conv2dBNReLU(inCh, outCh, ks, leak);
    [b[0].(stride := stride)] + b[1..]
  }

  /** With stride 1 the strided block is exactly `Conv2dBNReLU`. */
  lemma StridedUnitStride(inCh: int, outCh: int, ks: int, leak: real)
    ensures Conv2dBNReLUStrided(inCh, outCh, ks, 1, leak) == Conv2dBNReLU(inCh, outCh, ks, leak)
  {
    var b := Conv2dBNReLU(inCh, outCh, ks, leak);
    assert b == [b[0]] + b[1..];
  }

  /** A conditional batch norm: its channel count, conditioning width and
      whatever state `condition(z)` leaves in it (opaque here). */
  datatype CondBN<S> = CondBN(ch: int, condCh: int, state: S)

  /** The module `Conv2dCondBNReLU`: a convolution, a conditional batch norm
      and the leak that picks the activation at `forward` time. */
  datatype CondBNReLU<S> = CondBNReLU(conv: Layer, cbn: CondBN<S>, leak: real)

  /** `Conv2dCondBNReLU.__init__`: unlike `Conv2dNormReLU`, the convolution
      keeps its constructor's initialisation. */
  function NewCondBNReLU<S>(inCh: int, outCh: int, condCh: int, ks: int, leak: real, fresh0: S): (b: CondBNReLU<S>)
    ensures b.conv.Conv2d? && Through(b.conv, inCh) == Some(outCh) && b.conv.ks == ks
    ensures b.conv.init == Default && b.conv.stride == 1
    ensures b.cbn.ch == b.conv.outCh && b.cbn.condCh == condCh && b.cbn.state == fresh0
    ensures b.leak == leak
  {
    CondBNReLU(Conv2d(inCh, outCh, ks, 1, Default), CondBN(outCh, condCh, fresh0), leak)
  }

  /** `condition(z)`: hands `z` to the conditional batch norm, whose own
      update `cbnCondition` is outside the model, and touches nothing else. */
  function Condition<S, Z>(b: CondBNReLU<S>, z: Z, cbnCondition: (S, Z) -> S): (b': CondBNReLU<S>)
    ensures b'.conv == b.conv && b'.leak == b.leak
    ensures b'.cbn.ch == b.cbn.ch && b'.cbn.condCh == b.cbn.condCh
    ensures b'.cbn.state == cbnCondition(b.cbn.state, z)
  {
    b.(cbn := b.cbn.(state := cbnCondition(b.cbn.state, z)))
  }

  /** `forward(x, z)`: the convolution, then the conditional batch norm with
      `z`, then `relu` when the leak is zero and `leaky_relu(leak)` otherwise.
      The tensor operations are parameters; the activation chosen is the one
      `Conv2dNormReLU` would choose for the same leak. */
  function Forward<S, Z, X>(b: CondBNReLU<S>, x: X, z: Option<Z>,
                            conv: (Layer, X) -> X,
                            cbn: (CondBN<S>, X, Option<Z>) -> X,
                            act: (Activation, X) -> X): (y: X)
    ensures y == act(ActivationFor(b.leak), cbn(b.cbn, conv(b.conv, x), z))
  {
    var h := conv(b.conv, x);
    var n := cbn(b.cbn, h, z);
    if b.leak == 0.0 then act(ReLU, n) else act(LeakyReLU(b.leak), n)
  }

  /** The conditional block and `Conv2dNormReLU` end with the same activation
      for the same leak, although one tests `leak == 0` and the other
      `leak != 0`. */
  lemma CondBlockActivationAgrees<S>(b: CondBNReLU<S>, inCh: int, outCh: int, ks: int, norm: Layer)
    ensures Conv2dNormReLU(inCh, outCh, ks, norm, b.leak)[2] == Act(if b.leak == 0.0 then ReLU else LeakyReLU(b.leak))
  {
  }
}

=== FILE: outcomes.dfy ===
/** Failure-carrying values shared by every module of the model, and the
    Python exceptions the modelled code can raise. */
module Outcomes {

  /** An optional value. */
  datatype Option<+T> = None | Some(value: T)

  /** Either a value or the exception that stopped the computation. */
  datatype Result<+T, +E> = Ok(value: T) | Err(error: E)

  /** The Python exceptions that the modelled code raises or lets through,
      each with the Python class it stands for. */
  datatype PyError =
    /** `IndexError`: `arch[0]` on an empty list. */
    | IndexError
    /** `ValueError`: `int(field)` on a field that is not a decimal literal. */
    | ValueError(literal: string)
    /** `ValueError` ("not enough values to unpack" or "too many values to
        unpack"): tuple unpacking `ch, s = xs` with `len(xs) != expected`. */
    | UnpackError(expected: nat, got: nat)
    /** `TypeError` ("got an unexpected keyword argument"): a keyword
        argument the callee does not declare. */
    | UnexpectedKeyword(name: string)
    /** `TypeError` ("got multiple values for argument"): a keyword argument
        naming a parameter a positional argument already filled. */
    | MultipleValues(name: string)
    /** `TypeError` ("got multiple values for keyword argument"): the call
        site assembles the same keyword twice, through several `**`
        unpackings, before the callee binds anything. */
    | RepeatedKeyword(name: string)
}

=== FILE: pystr.dfy ===
/** The two Python string operations that architecture parsing relies on:
    `str.split(sep)` and `int(s)` restricted to plain decimal digit strings. */
module PyStr {
  import opened Outcomes

  /** `sep.join(fields)`. */
  function Join(fields: seq<string>, sep: char): string
  {
    if |fields| == 0 then ""
    else if |fields| == 1 then fields[0]
    else fields[0] + [sep] + Join(fields[1..], sep)
  }

  /** `s.split(sep)` for a one-character separator: never an empty list, and
      the empty string splits into one empty field. */
  function Split(s: string, sep: char): (r: seq<string>)
    ensures |r| >= 1
    ensures forall i :: 0 <= i < |r| ==> sep !in r[i]
  {
    if |s| == 0 then [""]
    else
      var rest := Split(s[1..], sep);
      if s[0] == sep then [""] + rest
      else [[s[0]] + rest[0]] + rest[1..]
  }

  /** Joining the fields of a split gives back the string. */
  lemma {:induction false} JoinSplit(s: string, sep: char)
    ensures Join(Split(s, sep), sep) == s
    decreases |s|
  {
    if |s| > 0 {
      var rest := Split(s[1..], sep);
      JoinSplit(s[1..], sep);
      if s[0] == sep {
        assert ([""] + rest)[1..] == rest;
        assert [sep] + s[1..] == s;
      } else {
        var r := [[s[0]] + rest[0]] + rest[1..];
        if |rest| == 1 {
          assert Join(r, sep) == [s[0]] + rest[0];
        } else {
          assert r[1..] == rest[1..];
          assert Join(rest, sep) == rest[0] + [sep] + Join(rest[1..], sep);
          assert Join(r, sep) == [s[0]] + rest[0] + [sep] + Join(rest[1..], sep);
        }
        assert [s[0]] + s[1..] == s;
      }
    }
  }

  /** A separator-free prefix is glued onto the first field of what follows. */
  lemma {:induction false} SplitPrefix(w: string, t: string, sep: char)
    requires sep !in w
    ensures Split(w + t, sep) == [w + Split(t, sep)[0]] + Split(t, sep)[1..]
    decreases |w|
  {
    if |w| > 0 {
      assert (w + t)[0] == w[0];
      assert (w + t)[1..] == w[1..] + t;
      SplitPrefix(w[1..], t, sep);
      assert [w[0]] + (w[1..] + Split(t, sep)[0]) == w + Split(t, sep)[0];
    } else {
      var r := Split(t, sep);
      assert w + t == t;
      assert w + r[0] == r[0];
      assert r == [r[0]] + r[1..];
    }
  }

  /** Splitting a join of separator-free fields gives back the fields: with
      `JoinSplit`, `Split` and `Join` are mutually inverse. */
  lemma {:induction false} SplitJoin(fields: seq<string>, sep: char)
    requires |fields| >= 1
    requires forall i :: 0 <= i < |fields| ==> sep !in fields[i]
    ensures Split(Join(fields, sep), sep) == fields
    decreases |fields|
  {
    if |fields| == 1 {
      SplitPrefix(fields[0], "", sep);
      assert fields[0] + "" == fields[0];
    } else {
      var t := Join(fields[1..], sep);
      SplitJoin(fields[1..], sep);
      var u := [sep] + t;
      assert Split(u, sep) == [""] + fields[1..];
      assert Split(u, sep)[0] == "" && Split(u, sep)[1..] == fields[1..];
      assert fields[0] + [sep] + t == fields[0] + u;
      SplitPrefix(fields[0], u, sep);
      assert fields[0] + "" == fields[0];
      assert fields == [fields[0]] + fields[1..];
    }
  }

  /** The number of fields is one more than the number of separators. */
  lemma {:induction false} SplitCount(s: string, sep: char)
    ensures |Split(s, sep)| == Occurrences(s, sep) + 1
    decreases |s|
  {
    if |s| > 0 {
      SplitCount(s[1..], sep);
    }
  }

  /** How many times `c` occurs in `s`. */
  function Occurrences(s: string, c: char): nat
  {
    if |s| == 0 then 0
    else (if s[0] == c then 1 else 0) + Occurrences(s[1..], c)
  }

  predicate IsDigit(c: char)
  {
    '0' <= c <= '9'
  }

  predicate AllDigits(s: string)
  {
    forall i :: 0 <= i < |s| ==> IsDigit(s[i])
  }

  function DigitValue(c: char): (d: nat)
    requires IsDigit(c)
    ensures d < 10
  {
    c as int - '0' as int
  }

  function DigitChar(d: nat): (c: char)
    requires d < 10
    ensures IsDigit(c) && DigitValue(c) == d
  {
    ('0' as int + d) as char
  }

  /** The number a digit string denotes, most significant digit first. */
  function DigitsValue(s: string): nat
    requires AllDigits(s)
  {
    if |s| == 0 then 0
    else 10 * DigitsValue(s[..|s| - 1]) + DigitValue(s[|s| - 1])
  }

  /** `int(s)` on plain decimal literals: `None` stands for the `ValueError`
      Python raises. Leading zeros are accepted, as Python's `int` accepts them. */
  function ParseInt(s: string): (r: Option<nat>)
    ensures r.Some? <==> |s| > 0 && AllDigits(s)
  {
    if |s| > 0 && AllDigits(s) then Some(DigitsValue(s)) else None
  }

  /** A leading zero adds nothing to a digit string's value. */
  lemma {:induction false} LeadingZeroValue(s: string)
    requires AllDigits(s)
    ensures AllDigits("0" + s) && DigitsValue("0" + s) == DigitsValue(s)
    decreases |s|
  {
    var z := "0" + s;
    assert AllDigits(z) by {
      forall i | 0 <= i < |z|
        ensures IsDigit(z[i])
      {
        if i > 0 {
          assert z[i] == s[i - 1];
        }
      }
    }
    if |s| > 0 {
      var init := s[..|s| - 1];
      assert z[..|z| - 1] == "0" + init;
      assert z[|z| - 1] == s[|s| - 1];
      LeadingZeroValue(init);
    }
  }

  /** `int('0' + s) == int(s)`: leading zeros are accepted and ignored, so
      `int('064') == int('64') == 64`. */
  lemma LeadingZero(s: string)
    requires |s| > 0 && AllDigits(s)
    ensures ParseInt("0" + s) == ParseInt(s)
  {
    LeadingZeroValue(s);
  }

  /** `str(n)` for a natural number: the canonical decimal spelling. */
  function Decimal(n: nat): (r: string)
    ensures |r| > 0 && AllDigits(r)
  {
    if n < 10 then [DigitChar(n)] else Decimal(n / 10) + [DigitChar(n % 10)]
  }

  /** `int(str(n)) == n`. */
  lemma {:induction false} ParseDecimal(n: nat)
    ensures ParseInt(Decimal(n)) == Some(n)
  {
    DecimalValue(n);
  }

  lemma {:induction false} DecimalValue(n: nat)
    ensures DigitsValue(Decimal(n)) == n
  {
    if n >= 10 {
      var d := Decimal(n / 10);
      var s := d + [DigitChar(n % 10)];
      assert s[..|s| - 1] == d;
      DecimalValue(n / 10);
    }
  }

  /** A decimal spelling never contains a separator such as `':'`. */
  lemma DecimalHasNoColon(n: nat)
    ensures ':' !in Decimal(n)
  {
  }
}

=== FILE: resnet.dfy ===
/** `ResNetBone`: parsing a list of `"channels:stride"` entries and chaining
    them into a stem block followed by residual blocks, and the fixed
    `ResNetDebug` configuration built on it. */
module ResNet {
  import opened Outcomes
  import opened PyStr
  import Blocks

  /** One layer of the backbone. `ConvBNReLU` is the strided
      convolution-batchnorm-ReLU stem; `ResBlock` is an opaque residual block. */
  datatype Stage =
    | ConvBNReLU(inCh: int, outCh: int, ks: int, stride: int)
    | ResBlock(inCh: int, outCh: int, stride: int)

  /** The classifier head around a backbone. */
  datatype Classifier = Classifier(backbone: seq<Stage>, features: int, classes: int)

  /** The inner `parse(l)`: split on `':'`, convert every field with `int`
      (the first bad field raises), then unpack into exactly two values. */
  function ParseEntry(l: string): (r: Result<(int, int), PyError>)
    ensures r.Ok? <==> |Split(l, ':')| == 2 && forall i :: 0 <= i < 2 ==> ParseInt(Split(l, ':')[i]).Some?
    ensures r.Ok? ==> ParseInt(Split(l, ':')[0]) == Some(r.value.0) && ParseInt(Split(l, ':')[1]) == Some(r.value.1)
    ensures (forall i :: 0 <= i < |Split(l, ':')| ==> ParseInt(Split(l, ':')[i]).Some?) && |Split(l, ':')| != 2 ==>
              r == Err(UnpackError(2, |Split(l, ':')|))
    ensures forall i :: FirstBadField(Split(l, ':'), i) ==> r == Err(ValueError(Split(l, ':')[i]))
  {
    var fields := Split(l, ':');
    match ParseFields(fields)
    case Err(e) => Err(e)
    case Ok(ns) => if |ns| != 2 then Err(UnpackError(2, |ns|)) else Ok((ns[0], ns[1]))
  }

  /** Field `i` is the first of `fields` that `int` rejects. */
  predicate FirstBadField(fields: seq<string>, i: int)
  {
    && 0 <= i < |fields|
    && ParseInt(fields[i]).None?
    && forall j :: 0 <= j < i ==> ParseInt(fields[j]).Some?
  }

  /** `[int(x) for x in fields]`: raises `ValueError` on the first field that
      is not an integer literal. */
  function ParseFields(fields: seq<string>): (r: Result<seq<nat>, PyError>)
    ensures r.Ok? <==> forall i :: 0 <= i < |fields| ==> ParseInt(fields[i]).Some?
    ensures r.Ok? ==> |r.value| == |fields| && forall i :: 0 <= i < |fields| ==> ParseInt(fields[i]) == Some(r.value[i])
    ensures r.Err? ==> exists i :: FirstBadField(fields, i) && r.error == ValueError(fields[i])
  {
    if |fields| == 0 then Ok([])
    else
      match ParseInt(fields[0])
      case None => Err(ValueError(fields[0]))
      case Some(n) =>
        match ParseFields(fields[1..])
        case Err(e) => Err(e)
        case Ok(ns) => Ok([n] + ns)
  }

  /** The text `"<ch>:<stride>"` of one entry. */
  function FormatEntry(ch: nat, stride: nat): string
  {
    Decimal(ch) + ":" + Decimal(stride)
  }

  /** Parsing a formatted entry gives back its two numbers. */
  lemma {:induction false} ParseFormatEntry(ch: nat, stride: nat)
    ensures ParseEntry(FormatEntry(ch, stride)) == Ok((ch, stride))
  {
    var fields := [Decimal(ch), Decimal(stride)];
    DecimalHasNoColon(ch);
    DecimalHasNoColon(stride);
    assert Join(fields, ':') == FormatEntry(ch, stride) by {
      assert fields[1..] == [Decimal(stride)];
    }
    SplitJoin(fields, ':');
    ParseDecimal(ch);
    ParseDecimal(stride);
  }

  /** An entry that parses is exactly two decimal fields around one `':'`. */
  lemma EntryShape(l: string)
    requires ParseEntry(l).Ok?
    ensures exists a, b :: l == a + ":" + b && ':' !in a && ':' !in b && ParseInt(a).Some? && ParseInt(b).Some?
  {
    var fields := Split(l, ':');
    JoinSplit(l, ':');
    assert fields[1..] == [fields[1]];
    assert l == fields[0] + ":" + fields[1];
  }

  /** Layer `i` takes the channels layer `i - 1` produces; the first one
      takes `inCh`. */
  ghost predicate ChainedFrom(inCh: int, stages: seq<Stage>)
  {
    && (|stages| > 0 ==> stages[0].inCh == inCh)
    && forall i :: 0 < i < |stages| ==> stages[i].inCh == stages[i - 1].outCh
  }

  /** Entry `i` is the first one of `entries` that does not parse, and it
      raises `e`. */
  ghost predicate FirstFailure(entries: seq<string>, e: PyError)
  {
    exists i :: 0 <= i < |entries| && ParseEntry(entries[i]) == Err(e) &&
      forall j :: 0 <= j < i ==> ParseEntry(entries[j]).Ok?
  }

  /** A failure past a parsing first entry is a failure of the whole list. */
  lemma FirstFailureShift(entries: seq<string>, e: PyError)
    requires |entries| > 0 && ParseEntry(entries[0]).Ok?
    requires FirstFailure(entries[1..], e)
    ensures FirstFailure(entries, e)
  {
    var i :| 0 <= i < |entries[1..]| && ParseEntry(entries[1..][i]) == Err(e) &&
      forall j :: 0 <= j < i ==> ParseEntry(entries[1..][j]).Ok?;
    assert entries[i + 1] == entries[1..][i];
    forall j | 0 <= j < i + 1
      ensures ParseEntry(entries[j]).Ok?
    {
      if j > 0 {
        assert entries[j] == entries[1..][j - 1];
      }
    }
  }

  /** The loop over `map(parse, arch[1:])`: one `ResBlock` per entry, each
      taking the previous output channel count. */
  function ResBlocks(inCh: int, entries: seq<string>): (r: Result<seq<Stage>, PyError>)
    ensures r.Ok? <==> forall i :: 0 <= i < |entries| ==> ParseEntry(entries[i]).Ok?
    ensures r.Ok? ==> |r.value| == |entries| && ChainedFrom(inCh, r.value)
    ensures r.Ok? ==> forall i :: 0 <= i < |entries| ==>
      r.value[i].ResBlock? && ParseEntry(entries[i]) == Ok((r.value[i].outCh, r.value[i].stride))
    ensures r.Err? ==> FirstFailure(entries, r.error)
    decreases |entries|
  {
    if |entries| == 0 then Ok([])
    else
      match ParseEntry(entries[0])
      case Err(e) =>
        assert ParseEntry(entries[0]) == Err(e);
        Err(e)
      case Ok(p) =>
        var tail := ResBlocks(p.0, entries[1..]);
        match tail
        case Err(e) =>
          FirstFailureShift(entries, e);
          Err(e)
        case Ok(rest) =>
          PrependBlock(inCh, entries, rest);
          Ok([ResBlock(inCh, p.0, p.1)] + rest)
  }

  /** Putting the first entry's block in front of the blocks built from the
      rest keeps the chain and the entry-by-entry correspondence. */
  lemma PrependBlock(inCh: int, entries: seq<string>, rest: seq<Stage>)
    requires |entries| > 0 && ParseEntry(entries[0]).Ok?
    requires |rest| == |entries| - 1 && ChainedFrom(ParseEntry(entries[0]).value.0, rest)
    requires forall i :: 0 <= i < |rest| ==>
      rest[i].ResBlock? && ParseEntry(entries[1..][i]) == Ok((rest[i].outCh, rest[i].stride))
    ensures var p := ParseEntry(entries[0]).value;
      var r := [ResBlock(inCh, p.0, p.1)] + rest;
      && ChainedFrom(inCh, r)
      && forall i :: 0 <= i < |entries| ==>
           r[i].ResBlock? && ParseEntry(entries[i]) == Ok((r[i].outCh, r[i].stride))
  {
    var p := ParseEntry(entries[0]).value;
    var r := [ResBlock(inCh, p.0, p.1)] + rest;
    forall i | 0 < i < |entries|
      ensures r[i] == rest[i - 1] && entries[i] == entries[1..][i - 1]
    {
    }
  }

  /** `ResNetBone(arch, in_ch)` with the stem built as the strided block the
      code evidently means. An empty `arch` raises `IndexError`; otherwise the
      first entry that does not parse raises, and when all parse the result
      has one layer per entry: the stem from `in_ch`, then `ResBlock`s, each
      taking its predecessor's output channels and carrying the channels and
      stride of its own entry. */
  function ResNetBone(arch: seq<string>, inCh: int): (r: Result<seq<Stage>, PyError>)
    ensures r.Ok? <==> |arch| > 0 && forall i :: 0 <= i < |arch| ==> ParseEntry(arch[i]).Ok?
    ensures |arch| == 0 ==> r == Err(IndexError)
    ensures r.Err? && |arch| > 0 ==> FirstFailure(arch, r.error)
    ensures r.Ok? ==> |r.value| == |arch| && ChainedFrom(inCh, r.value)
    ensures r.Ok? ==> r.value[0] == ConvBNReLU(inCh, r.value[0].outCh, 3, r.value[0].stride)
    ensures r.Ok? ==> forall i :: 0 < i < |arch| ==> r.value[i].ResBlock?
    ensures r.Ok? ==> forall i :: 0 <= i < |arch| ==> ParseEntry(arch[i]) == Ok((r.value[i].outCh, r.value[i].stride))
  {
    if |arch| == 0 then Err(IndexError)
    else
      match ParseEntry(arch[0])
      case Err(e) =>
        assert ParseEntry(arch[0]) == Err(e);
        Err(e)
      case Ok(p) =>
        var stem := ConvBNReLU(inCh, p.0, 3, p.1);
        assert forall i :: 0 < i < |arch| ==> arch[i] == arch[1..][i - 1];
        match ResBlocks(p.0, arch[1..])
        case Err(e) =>
          FirstFailureShift(arch, e);
          Err(e)
        case Ok(rest) =>
          var r := [stem] + rest;
          assert forall i :: 0 < i < |arch| ==> r[i] == rest[i - 1];
          Ok(r)
  }

  /** `layers` followed by the outcome of building the rest. */
  function Extend(layers: seq<Stage>, rest: Result<seq<Stage>, PyError>): Result<seq<Stage>, PyError>
  {
    match rest
    case Err(e) => Err(e)
    case Ok(t) => Ok(layers + t)
  }

  /** One turn of the loop: the next entry either raises or appends its block. */
  lemma ExtendStep(layers: seq<Stage>, ch: int, entries: seq<string>)
    requires |entries| > 0
    ensures ParseEntry(entries[0]).Err? ==> Extend(layers, ResBlocks(ch, entries)) == Err(ParseEntry(entries[0]).error)
    ensures ParseEntry(entries[0]).Ok? ==>
      var p := ParseEntry(entries[0]).value;
      Extend(layers, ResBlocks(ch, entries)) == Extend(layers + [ResBlock(ch, p.0, p.1)], ResBlocks(p.0, entries[1..]))
  {
    if ParseEntry(entries[0]).Ok? {
      var p := ParseEntry(entries[0]).value;
      match ResBlocks(p.0, entries[1..])
      case Err(_) =>
      case Ok(t) =>
        assert layers + ([ResBlock(ch, p.0, p.1)] + t) == (layers + [ResBlock(ch, p.0, p.1)]) + t;
    }
  }

  /** The layers a stem stage stands for: the strided conv-BN-ReLU block,
      with `Conv2dBNReLU`'s default leak of 0. */
  function StemLayers(st: Stage): seq<Blocks.Layer>
    requires st.ConvBNReLU?
  {
    Blocks.Conv2dBNReLUStrided(st.inCh, st.outCh, st.ks, st.stride, 0.0)
  }

  /** Expanded into layers, the stem of a built backbone is a kernel-3
      convolution with `arch[0]`'s stride, followed by a batch norm and a
      plain `ReLU`; it carries `in_ch` channels to exactly the channels the
      first `ResBlock` takes. */
  lemma StemExpansion(arch: seq<string>, inCh: int)
    requires ResNetBone(arch, inCh).Ok?
    ensures var stages := ResNetBone(arch, inCh).value;
      var layers := StemLayers(stages[0]);
      && layers[0].ks == 3 && layers[0].stride == ParseEntry(arch[0]).value.1
      && layers[2] == Blocks.Act(Blocks.ReLU)
      && Blocks.Flow(layers, inCh) == Some(stages[0].outCh)
      && (|stages| > 1 ==> Blocks.Flow(layers, inCh) == Some(stages[1].inCh))
  {
  }

  /** The Python loop of `ResNetBone`, threading `in_ch` through a mutable
      variable: it builds exactly the layers `ResNetBone` describes. */
  method BuildResNetBone(arch: seq<string>, inCh: int) returns (r: Result<seq<Stage>, PyError>)
    ensures r == ResNetBone(arch, inCh)
  {
    if |arch| == 0 {
      return Err(IndexError);
    }
    var first := ParseEntry(arch[0]);
    if first.Err? {
      return Err(first.error);
    }
    var layers := [ConvBNReLU(inCh, first.value.0, 3, first.value.1)];
    var ch := first.value.0;
    assert ResNetBone(arch, inCh) == Extend(layers, ResBlocks(ch, arch[1..]));
    var i := 1;
    while i < |arch|
      invariant 1 <= i <= |arch|
      invariant ResNetBone(arch, inCh) == Extend(layers, ResBlocks(ch, arch[i..]))
    {
      ExtendStep(layers, ch, arch[i..]);
      assert arch[i..][0] == arch[i] && arch[i..][1..] == arch[i + 1..];
      var e := ParseEntry(arch[i]);
      if e.Err? {
        return Err(e.error);
      }
      layers := layers + [ResBlock(ch, e.value.0, e.value.1)];
      ch := e.value.0;
      i := i + 1;
    }
    assert arch[i..] == [];
    assert layers + [] == layers;
    r := Ok(layers);
  }

  /** `ResNetBone` as written: an empty `arch` raises `IndexError` and a first
      entry that does not parse raises its own error, as in the corrected
      version; otherwise the stem call passes `stride=` to a `Conv2dBNReLU`
      that has no such parameter, so it raises `TypeError` and no layer list
      is ever returned. */
  function ResNetBoneAsWritten(arch: seq<string>, inCh: int): (r: Result<seq<Stage>, PyError>)
    ensures |arch| == 0 ==> r == Err(IndexError)
    ensures |arch| > 0 && ParseEntry(arch[0]).Err? ==> r == Err(ParseEntry(arch[0]).error)
    ensures |arch| > 0 && ParseEntry(arch[0]).Ok? ==> r == Err(UnexpectedKeyword("stride"))
  {
    if |arch| == 0 then Err(IndexError)
    else
      match ParseEntry(arch[0])
      case Err(e) => Err(e)
      case Ok(p) =>
        match Blocks.CallConv2dBNReLU(inCh, p.0, 3, [("stride", p.1 as real)])
        case Err(e) => Err(e)
        case Ok(_) => ResNetBone(arch, inCh)
  }

  /** Whatever the architecture, the as-written `ResNetBone` never succeeds,
      while the corrected one succeeds on every well-formed architecture. */
  lemma AsWrittenNeverBuilds(arch: seq<string>, inCh: int)
    ensures ResNetBoneAsWritten(arch, inCh).Err?
    ensures ResNetBone(arch, inCh).Ok? ==> ResNetBoneAsWritten(arch, inCh) != ResNetBone(arch, inCh)
  {
    if |arch| > 0 && ParseEntry(arch[0]).Ok? {
      var p := ParseEntry(arch[0]).value;
      var kw := [("stride", p.1 as real)];
      assert kw[0].0 != "leak";
    }
  }

  /** The fixed architecture of `ResNetDebug`. */
  const DebugArch: seq<string> := ["64:2", "64:1", "64:1", "128:2", "128:1", "256:2", "256:1"]

  lemma DebugArchParses()
    ensures forall i :: 0 <= i < |DebugArch| ==> ParseEntry(DebugArch[i]).Ok?
    ensures ParseEntry(DebugArch[0]) == Ok((64, 2)) && ParseEntry(DebugArch[6]) == Ok((256, 1))
  {
    DebugArchSpelling();
    ParseFormatArch(DebugSpecs);
  }

  /** The (channels, stride) pairs `DebugArch` spells. */
  const DebugSpecs: seq<(nat, nat)> := [(64, 2), (64, 1), (64, 1), (128, 2), (128, 1), (256, 2), (256, 1)]

  /** The entries spelling a list of (channels, stride) pairs. */
  function FormatArch(specs: seq<(nat, nat)>): (arch: seq<string>)
    ensures |arch| == |specs|
    ensures forall i :: 0 <= i < |specs| ==> arch[i] == FormatEntry(specs[i].0, specs[i].1)
  {
    seq(|specs|, i requires 0 <= i < |specs| => FormatEntry(specs[i].0, specs[i].1))
  }

  /** Every entry of a formatted architecture parses back to its pair. */
  lemma ParseFormatArch(specs: seq<(nat, nat)>)
    ensures forall i :: 0 <= i < |specs| ==> ParseEntry(FormatArch(specs)[i]) == Ok(specs[i])
  {
    forall i | 0 <= i < |specs|
      ensures ParseEntry(FormatArch(specs)[i]) == Ok(specs[i])
    {
      ParseFormatEntry(specs[i].0, specs[i].1);
    }
  }

  lemma DebugArchSpelling()
    ensures DebugArch == FormatArch(DebugSpecs)
  {
    DebugDecimals();
    var f := FormatArch(DebugSpecs);
    assert f[0] == DebugArch[0];
    assert f[1] == DebugArch[1];
    assert f[2] == DebugArch[2];
    assert f[3] == DebugArch[3];
    assert f[4] == DebugArch[4];
    assert f[5] == DebugArch[5];
    assert f[6] == DebugArch[6];
  }

  lemma DebugDecimals()
    ensures Decimal(1) == "1" && Decimal(2) == "2"
    ensures Decimal(64) == "64" && Decimal(128) == "128" && Decimal(256) == "256"
  {
    assert Decimal(6) == "6";
    assert Decimal(12) == Decimal(1) + "2";
    assert Decimal(25) == Decimal(2) + "5";
    assert Decimal(64) == Decimal(6) + "4";
    assert Decimal(128) == Decimal(12) + "8";
    assert Decimal(256) == Decimal(25) + "6";
  }

  /** `ResNetDebug(in_ch)`: the debug classifier, with the stem corrected as
      under `ResNetBoneAsWritten`. It always builds the fixed seven-entry
      backbone on one input channel, whatever `in_ch` is: a kernel-3 stem and
      six `ResBlock`s, chained, carrying the (channels, stride) pairs of
      `DebugSpecs` in order. Its head reads the final 256 channels into 10
      classes. */
  function ResNetDebug(inCh: int): (r: Result<Classifier, PyError>)
    ensures r.Ok?
    ensures |r.value.backbone| == 7 && ChainedFrom(1, r.value.backbone)
    ensures forall i :: 0 <= i < 7 ==>
      r.value.backbone[i].outCh == DebugSpecs[i].0 && r.value.backbone[i].stride == DebugSpecs[i].1
    ensures r.value.backbone[0].ConvBNReLU? && r.value.backbone[0].ks == 3
    ensures forall i :: 0 < i < 7 ==> r.value.backbone[i].ResBlock?
    ensures r.value.backbone[6].outCh == r.value.features == 256
    ensures r.value.classes == 10
  {
    DebugArchParses();
    DebugArchSpelling();
    ParseFormatArch(DebugSpecs);
    match ResNetBone(DebugArch, 1)
    case Err(e) => Err(e)
    case Ok(b) => Ok(Classifier(b, 256, 10))
  }

  /** The `in_ch` argument of `ResNetDebug` has no effect. */
  lemma ResNetDebugIgnoresInCh(a: int, b: int)
    ensures ResNetDebug(a) == ResNetDebug(b)
  {
  }
}

=== FILE: trainandtest.dfy ===
/** `TrainAndTest`: how the training and testing loops are wired with their
    callbacks, the `eval_call` wrapper that switches the model between train
    and eval mode around each test batch, and the delegating methods. Loops
    and callbacks are descriptors; what they do when run is outside the model. */
module TrainAndTest {
  import opened Outcomes

  /** The model's mode flag, set by `model.train()` and `model.eval()`. */
  datatype Mode = Training | Evaluating

  /** The ambient state `eval_call` touches: the model's mode and the global
      gradient-tracking switch that `torch.no_grad()` turns off. */
  datatype Ctx = Ctx(mode: Mode, gradEnabled: bool)

  /** `model.train()` / `model.eval()`. */
  function SetMode(c: Ctx, m: Mode): Ctx
  {
    c.(mode := m)
  }

  /** `with torch.no_grad(): out = f(batch)`: `f` runs with gradients off, and
      leaving the block restores the switch whether `f` returned or raised.
      `E` is whatever exception `f` may raise. */
  function NoGrad<B, O, E>(c: Ctx, batch: B, f: (Ctx, B) -> Result<O, E>): (Ctx, Result<O, E>)
  {
    (c, f(c.(gradEnabled := false), batch))
  }

  /** `eval_call(batch)`. `test_fun` always runs on a model in eval mode with
      gradients off, and its outcome is passed on unchanged. The gradient
      switch ends as it started. On a normal return the model is left in
      train mode, whatever mode it was in before; when `test_fun` raises, the
      final `model.train()` is skipped and the model stays in eval mode. */
  function EvalCall<B, O, E>(c: Ctx, batch: B, testFun: (Ctx, B) -> Result<O, E>): (r: (Ctx, Result<O, E>))
    ensures r.1 == testFun(Ctx(Evaluating, false), batch)
    ensures r.0.gradEnabled == c.gradEnabled
    ensures r.1.Ok? ==> r.0.mode == Training
    ensures r.1.Err? ==> r.0.mode == Evaluating
  {
    var c1 := SetMode(c, Evaluating);
    var (c2, out) := NoGrad(c1, batch, testFun);
    if out.Ok? then (SetMode(c2, Training), out) else (c2, out)
  }

  /** A successful `eval_call` does not restore the prior mode: it forgets it.
      Two contexts that differ only in their mode end up identical. */
  lemma EvalCallForgetsPriorMode<B, O, E>(c1: Ctx, c2: Ctx, batch: B, testFun: (Ctx, B) -> Result<O, E>)
    requires c1.gradEnabled == c2.gradEnabled
    ensures EvalCall(c1, batch, testFun) == EvalCall(c2, batch, testFun)
    ensures c1.mode == Evaluating && EvalCall(c1, batch, testFun).1.Ok? ==>
      EvalCall(c1, batch, testFun).0.mode != c1.mode
  {
  }

  /** A model in train mode whose `test_fun` raises is left in eval mode:
      nothing restores its mode on the error path. */
  lemma EvalCallErrorLeavesEvalMode<B, O, E>(c: Ctx, batch: B, testFun: (Ctx, B) -> Result<O, E>)
    requires c.mode == Training
    requires testFun(Ctx(Evaluating, false), batch).Err?
    ensures EvalCall(c, batch, testFun).0.mode != c.mode
    ensures EvalCall(c, batch, testFun).1 == Err(testFun(Ctx(Evaluating, false), batch).error)
  {
  }

  /** `visdom_env` is a string or `None`. */
  type Env = Option<string>

  /** Python truthiness of `visdom_env`: `None` and `''` are false. */
  predicate Truthy(env: Env)
  {
    env.Some? && env.value != ""
  }

  const CkptSuffix: string := "/ckpt"

  /** `(visdom_env or 'model') + '/ckpt'`: always a `ckpt` file inside a
      non-empty directory; the directory is the environment name when that
      is truthy and `model` otherwise. */
  function CheckpointPath(env: Env): (p: string)
    ensures |p| > |CkptSuffix| && p[|p| - |CkptSuffix|..] == CkptSuffix
    ensures Truthy(env) ==> p[..|p| - |CkptSuffix|] == env.value
    ensures !Truthy(env) ==> p[..|p| - |CkptSuffix|] == "model"
  {
    var dir := if Truthy(env) then env.value else "model";
    assert (dir + CkptSuffix)[..|dir|] == dir;
    dir + CkptSuffix
  }

  /** The directory of a checkpoint path, or `None` if it is not one. */
  function CheckpointDir(p: string): Option<string>
  {
    if |p| > |CkptSuffix| && p[|p| - |CkptSuffix|..] == CkptSuffix then Some(p[..|p| - |CkptSuffix|])
    else None
  }

  /** `CheckpointDir` recovers the directory `CheckpointPath` chose. */
  lemma CheckpointDirOfPath(env: Env)
    ensures CheckpointDir(CheckpointPath(env)) == Some(if Truthy(env) then env.value else "model")
  {
  }

  /** Distinct truthy environments checkpoint to distinct paths; `None` and
      `''` share the fallback path, and so does an environment named `model`. */
  lemma CheckpointPathCollisions(a: Env, b: Env)
    ensures Truthy(a) && Truthy(b) && a != b ==> CheckpointPath(a) != CheckpointPath(b)
    ensures CheckpointPath(None) == CheckpointPath(Some("")) == CheckpointPath(Some("model")) == "model/ckpt"
  {
    if Truthy(a) && Truthy(b) && CheckpointPath(a) == CheckpointPath(b) {
      CheckpointDirOfPath(a);
      CheckpointDirOfPath(b);
    }
    assert CheckpointPath(None) == "model" + CkptSuffix;
  }

  /** The loop a callback refers to. */
  datatype LoopRef = TrainLoopRef | TestLoopRef

  /** Callback descriptors. A `prefix` of `None` is the logger's own default. */
  datatype Callback =
    | Counter
    | CallDataLoop(loop: LoopRef, model: string, testEvery: int)
    | VisdomLogger(env: Env, logEvery: int, prefix: Option<string>)
    | StdoutLogger(logEvery: int, prefix: Option<string>)
    | Checkpoint(path: string, target: LoopRef)
    /** A callback of the caller's own, passed to `add_callbacks`. */
    | UserCallback(name: string)

  /** What a loop calls on each batch: the caller's training function, or
      `eval_call` wrapped around the caller's test function. */
  datatype Step = TrainFun(name: string) | EvalCallOf(testFun: string)

  datatype LoopKind = DataModelLoop(model: string) | DataLoop

  /** A loop descriptor: its callbacks in invocation order, and the lists the
      caller added through `add_callbacks`, in the order they were added. */
  datatype Loop = Loop(kind: LoopKind, step: Step, loader: string, device: string,
                       prologues: seq<Callback>, epilogues: seq<Callback>, added: seq<Callback>)

  datatype Recipe = Recipe(trainLoop: Loop, testLoop: Loop)

  predicate IsLogger(cb: Callback)
  {
    cb.VisdomLogger? || cb.StdoutLogger?
  }

  /** The period of the first periodic-test trigger among `cbs`. */
  function TriggerPeriod(cbs: seq<Callback>): Option<int>
  {
    if |cbs| == 0 then None
    else if cbs[0].CallDataLoop? then Some(cbs[0].testEvery)
    else TriggerPeriod(cbs[1..])
  }

  /** The path of the first checkpoint among `cbs`. */
  function CheckpointTarget(cbs: seq<Callback>): Option<string>
  {
    if |cbs| == 0 then None
    else if cbs[0].Checkpoint? then Some(cbs[0].path)
    else CheckpointTarget(cbs[1..])
  }

  /** The structural invariant of a `TrainAndTest` wiring: the training loop
      is a model loop stepping with the training function, whose first
      prologue is the counter; every test trigger points at the test loop
      and every checkpoint at the training loop; the test loop evaluates
      through `eval_call`, triggers nothing itself, and logs once per pass.
      It covers the standard wiring only: the callbacks a caller adds later
      are not inspected, because how a loop dispatches them is not part of
      this model. */
  ghost predicate WellFormed(r: Recipe)
  {
    && r.trainLoop.kind.DataModelLoop? && r.trainLoop.step.TrainFun?
    && r.testLoop.kind.DataLoop?
    && r.testLoop.step.EvalCallOf?
    && |r.trainLoop.prologues| > 0 && r.trainLoop.prologues[0] == Counter
    && (forall i :: 0 <= i < |r.trainLoop.epilogues| && r.trainLoop.epilogues[i].CallDataLoop? ==>
          r.trainLoop.epilogues[i].loop == TestLoopRef)
    && (forall i :: 0 <= i < |r.testLoop.epilogues| ==> !r.testLoop.epilogues[i].CallDataLoop?)
    && (forall i :: 0 <= i < |r.testLoop.epilogues| && r.testLoop.epilogues[i].Checkpoint? ==>
          r.testLoop.epilogues[i].target == TrainLoopRef)
    && (forall i :: 0 <= i < |r.testLoop.epilogues| && IsLogger(r.testLoop.epilogues[i]) ==>
          r.testLoop.epilogues[i].logEvery < 0)
  }

  /** `TrainAndTest(model, train_fun, test_fun, train_loader, test_loader,
      test_every, visdom_env, log_every, device)`. */
  function New(model: string, trainFun: string, testFun: string, trainLoader: string, testLoader: string,
               testEvery: int, visdomEnv: Env, logEvery: int, device: string): (r: Recipe)
    ensures WellFormed(r)
    ensures r.trainLoop.kind == DataModelLoop(model) && r.trainLoop.step == TrainFun(trainFun)
    ensures r.testLoop.step == EvalCallOf(testFun)
    ensures r.trainLoop.loader == trainLoader && r.testLoop.loader == testLoader
    ensures r.trainLoop.device == device && r.testLoop.device == device
    ensures r.trainLoop.prologues == [Counter]
    ensures r.trainLoop.epilogues ==
      [CallDataLoop(TestLoopRef, model, testEvery), VisdomLogger(visdomEnv, logEvery, None), StdoutLogger(logEvery, None)]
    ensures r.testLoop.prologues == []
    ensures r.testLoop.epilogues ==
      [VisdomLogger(visdomEnv, -1, Some("test_")), StdoutLogger(-1, Some("Test")),
       Checkpoint(CheckpointPath(visdomEnv), TrainLoopRef)]
    ensures r.trainLoop.added == [] && r.testLoop.added == []
  {
    var trainLoop := Loop(DataModelLoop(model), TrainFun(trainFun), trainLoader, device, [], [], []);
    var testLoop := Loop(DataLoop, EvalCallOf(testFun), testLoader, device, [], [], []);
    var trainLoop := AddPrologues(trainLoop, [Counter]);
    var trainLoop := AddEpilogues(trainLoop, [
      CallDataLoop(TestLoopRef, model, testEvery),
      VisdomLogger(visdomEnv, logEvery, None),
      StdoutLogger(logEvery, None)]);
    var testLoop := AddEpilogues(testLoop, [
      VisdomLogger(visdomEnv, -1, Some("test_")),
      StdoutLogger(-1, Some("Test")),
      Checkpoint(CheckpointPath(visdomEnv), TrainLoopRef)]);
    Recipe(trainLoop, testLoop)
  }

  /** What the callbacks of a fresh wiring say when searched: the test period
      is `test_every` and the checkpoint goes to the path chosen from
      `visdom_env`, which is also the environment of every Visdom logger. */
  lemma NewWiring(model: string, trainFun: string, testFun: string, trainLoader: string, testLoader: string,
                  testEvery: int, visdomEnv: Env, logEvery: int, device: string)
    ensures var r := New(model, trainFun, testFun, trainLoader, testLoader, testEvery, visdomEnv, logEvery, device);
      && TriggerPeriod(r.trainLoop.epilogues) == Some(testEvery)
      && TriggerPeriod(r.testLoop.epilogues) == None
      && CheckpointTarget(r.testLoop.epilogues) == Some(CheckpointPath(visdomEnv))
      && CheckpointTarget(r.trainLoop.epilogues) == None
      && (forall i :: 0 <= i < |r.trainLoop.epilogues| && r.trainLoop.epilogues[i].VisdomLogger? ==>
            r.trainLoop.epilogues[i].env == visdomEnv)
      && (forall i :: 0 <= i < |r.testLoop.epilogues| && r.testLoop.epilogues[i].VisdomLogger? ==>
            r.testLoop.epilogues[i].env == visdomEnv)
      && (forall i :: 0 <= i < |r.trainLoop.epilogues| && IsLogger(r.trainLoop.epilogues[i]) ==>
            r.trainLoop.epilogues[i].logEvery == logEvery)
  {
    var r := New(model, trainFun, testFun, trainLoader, testLoader, testEvery, visdomEnv, logEvery, device);
    var te := r.testLoop.epilogues;
    assert te[1..] == [te[1], te[2]] && te[1..][1..] == [te[2]] && te[1..][1..][1..] == [];
    assert CheckpointTarget(te) == CheckpointTarget(te[1..]) == CheckpointTarget(te[1..][1..]);
    assert TriggerPeriod(te) == TriggerPeriod(te[1..]) == TriggerPeriod(te[1..][1..]) == TriggerPeriod([]);
    var tr := r.trainLoop.epilogues;
    assert tr[1..] == [tr[1], tr[2]] && tr[1..][1..] == [tr[2]] && tr[1..][1..][1..] == [];
    assert CheckpointTarget(tr) == CheckpointTarget(tr[1..]) == CheckpointTarget(tr[1..][1..]) == CheckpointTarget([]);
  }

  /** `TrainAndTest` with its default arguments: `test_every=100`,
      `visdom_env='main'`, `log_every=10`, `device='cpu'`. */
  function NewWithDefaults(model: string, trainFun: string, testFun: string, trainLoader: string, testLoader: string): (r: Recipe)
    ensures WellFormed(r)
    ensures r.trainLoop.kind == DataModelLoop(model) && r.trainLoop.step == TrainFun(trainFun)
    ensures r.testLoop.step == EvalCallOf(testFun)
    ensures r.trainLoop.loader == trainLoader && r.testLoop.loader == testLoader
    ensures forall i :: 0 <= i < |r.trainLoop.epilogues| && r.trainLoop.epilogues[i].VisdomLogger? ==>
      r.trainLoop.epilogues[i].env == Some("main")
    ensures forall i :: 0 <= i < |r.testLoop.epilogues| && r.testLoop.epilogues[i].VisdomLogger? ==>
      r.testLoop.epilogues[i].env == Some("main")
    ensures TriggerPeriod(r.trainLoop.epilogues) == Some(100)
    ensures CheckpointTarget(r.testLoop.epilogues) == Some("main/ckpt")
    ensures forall i :: 0 <= i < |r.trainLoop.epilogues| && IsLogger(r.trainLoop.epilogues[i]) ==>
      r.trainLoop.epilogues[i].logEvery == 10
    ensures r.trainLoop.device == "cpu" && r.testLoop.device == "cpu"
  {
    NewWiring(model, trainFun, testFun, trainLoader, testLoader, 100, Some("main"), 10, "cpu");
    assert CheckpointPath(Some("main")) == "main" + CkptSuffix == "main/ckpt";
    New(model, trainFun, testFun, trainLoader, testLoader, 100, Some("main"), 10, "cpu")
  }

  function AddPrologues(l: Loop, cbs: seq<Callback>): Loop
  {
    l.(prologues := l.prologues + cbs)
  }

  function AddEpilogues(l: Loop, cbs: seq<Callback>): Loop
  {
    l.(epilogues := l.epilogues + cbs)
  }

  /** `add_callbacks(cbs)`: hands `cbs` to the training loop only; the
      standard wiring and the test loop are untouched. `WellFormed` is kept
      because the standard wiring is untouched; `cbs` themselves are not
      checked. */
  function AddCallbacks(r: Recipe, cbs: seq<Callback>): (r': Recipe)
    ensures r'.testLoop == r.testLoop
    ensures r'.trainLoop.added == r.trainLoop.added + cbs
    ensures r'.trainLoop == r.trainLoop.(added := r'.trainLoop.added)
    ensures WellFormed(r) ==> WellFormed(r')
  {
    r.(trainLoop := r.trainLoop.(added := r.trainLoop.added + cbs))
  }

  /** `add_test_callbacks(cbs)`: hands `cbs` to the test loop only; as with
      `AddCallbacks`, `cbs` themselves are not checked. */
  function AddTestCallbacks(r: Recipe, cbs: seq<Callback>): (r': Recipe)
    ensures r'.trainLoop == r.trainLoop
    ensures r'.testLoop.added == r.testLoop.added + cbs
    ensures r'.testLoop == r.testLoop.(added := r'.testLoop.added)
    ensures WellFormed(r) ==> WellFormed(r')
  {
    r.(testLoop := r.testLoop.(added := r.testLoop.added + cbs))
  }

  /** Adding training and test callbacks commute, and adding twice is adding
      the concatenation once. */
  lemma AddCallbacksAlgebra(r: Recipe, a: seq<Callback>, b: seq<Callback>)
    ensures AddTestCallbacks(AddCallbacks(r, a), b) == AddCallbacks(AddTestCallbacks(r, b), a)
    ensures AddCallbacks(AddCallbacks(r, a), b) == AddCallbacks(r, a + b)
    ensures AddTestCallbacks(AddTestCallbacks(r, a), b) == AddTestCallbacks(r, a + b)
  {
    assert r.trainLoop.added + a + b == r.trainLoop.added + (a + b);
    assert r.testLoop.added + a + b == r.testLoop.added + (a + b);
  }

  /** The loop a callback reference denotes in `r`. */
  function Resolve(r: Recipe, target: LoopRef): Loop
  {
    match target
    case TrainLoopRef => r.trainLoop
    case TestLoopRef => r.testLoop
  }

  /** How a loop's `run` sees the other loops of `r`: through the references
      its callbacks hold. */
  function Resolver(r: Recipe): LoopRef -> Loop
  {
    target => Resolve(r, target)
  }

  /** `fit(iters)`: `train_loop.run(iters)`. What a loop's `run` does is a
      parameter: it receives the loop it runs, the resolver for the loop
      references in that loop's callbacks, and the iteration count. `fit`
      hands it the training loop, never the test loop, and the test loop is
      reached only through the training loop's callbacks. */
  function Fit<T>(r: Recipe, iters: int, run: (Loop, LoopRef -> Loop, int) -> T): (out: T)
    ensures out == run(Resolve(r, TrainLoopRef), Resolver(r), iters)
  {
    run(r.trainLoop, Resolver(r), iters)
  }

  /** In a well-formed recipe, the loop `fit` runs reaches the test loop
      through every one of its test triggers, and the test loop's checkpoints
      lead back to the loop `fit` runs. */
  lemma FitReachesTestLoop(r: Recipe)
    requires WellFormed(r)
    ensures Resolve(r, TrainLoopRef).step.TrainFun?
    ensures forall i :: 0 <= i < |r.trainLoop.epilogues| && r.trainLoop.epilogues[i].CallDataLoop? ==>
      Resolver(r)(r.trainLoop.epilogues[i].loop) == r.testLoop && r.testLoop.step.EvalCallOf?
    ensures forall i :: 0 <= i < |r.testLoop.epilogues| && r.testLoop.epilogues[i].Checkpoint? ==>
      Resolver(r)(r.testLoop.epilogues[i].target) == Resolve(r, TrainLoopRef)
  {
  }

  /** On a `TrainAndTest` recipe with callbacks added to either loop, the
      loop `fit` runs triggers, every `test_every` iterations, exactly the
      test loop: the one evaluating `test_fun` through `eval_call`, holding
      the callbacks `add_test_callbacks` gave it. Its checkpoint saves the
      loop `fit` runs, callbacks included. */
  lemma FitTriggersTestLoop(model: string, trainFun: string, testFun: string, trainLoader: string, testLoader: string,
                            testEvery: int, visdomEnv: Env, logEvery: int, device: string,
                            cbs: seq<Callback>, testCbs: seq<Callback>)
    ensures var r := AddTestCallbacks(AddCallbacks(New(model, trainFun, testFun, trainLoader, testLoader,
                                                       testEvery, visdomEnv, logEvery, device), cbs), testCbs);
      var trigger := r.trainLoop.epilogues[0];
      && r.trainLoop.step == TrainFun(trainFun) && r.trainLoop.added == cbs
      && trigger.CallDataLoop? && trigger.testEvery == testEvery
      && Resolver(r)(trigger.loop) == r.testLoop
      && r.testLoop.step == EvalCallOf(testFun) && r.testLoop.added == testCbs
      && Resolver(r)(r.testLoop.epilogues[2].target) == r.trainLoop
  {
  }

  /** A callback of the caller's own, added after the wiring, is appended to
      the training loop and leaves the wiring, and so where `fit` leads,
      as it was. */
  lemma AddUserCallback(r: Recipe, name: string)
    requires WellFormed(r)
    ensures var r' := AddCallbacks(r, [UserCallback(name)]);
      && WellFormed(r')
      && r'.trainLoop.added[|r'.trainLoop.added| - 1] == UserCallback(name)
      && r'.trainLoop.epilogues == r.trainLoop.epilogues && Resolver(r')(TestLoopRef) == r.testLoop
  {
  }
}
